=== FILE: README.md ===
# Cavaliers spread-betting backend: a Dafny model

This project models the logic core of a demo sports-betting backend built on NestJS and MongoDB. The model covers three parts.

- **Bets service.** Placing a spread bet on a stored game, settling every pending bet of a game, and listing a user's bets. The Game and Bet collections are sequences of immutable records. Each operation is a pure function that returns `Result<…, HttpError>`, where `HttpError` is the NestJS exception class plus its message.
- **Points ledger.** A `map<string, int>` from user id to running total. It supports an upsert-increment and a total-or-zero read.
- **Games service helpers.** Recognising Cavaliers events in an odds-provider response, and picking the earliest future one. Extracting the Cavaliers spread from a bookmaker's spreads market, on both odds paths. Normalising ESPN schedule events, and the static-schedule fallback.

The model follows the code as written, not what its callers or comments suggest:

- `settleGame` takes only a game id. The scores come from the game's debug scores, or 110 and 102 when those are absent. Scores a caller sends are not an input.
- Settlement compares against the game's current spread, not the bet's stored `line`.
- There is no push outcome, and settlement awards no points.
- Placement has no duplicate-bet check (`BetsProperties.DuplicateBetsAccepted`).
- The stored spread is the Cavaliers outcome's point, but settlement always adds it to the home score. When the Cavaliers are the away team, this grades bets against the wrong team's handicap (`Scenarios.AwayFavouriteSpreadAppliedToHome`).

Conventions:

- "now" and the settlement timestamp are parameters.
- Times are integers: milliseconds since the epoch.
- A date string that is missing, empty or unparseable is `None`.
- Spreads, scores and stakes are `real`, so half points such as -5.5 are exact.
- `Option` stands for JavaScript `null`/`undefined`, and `GetOr` is the `??` operator.
- Each use of JavaScript's `find` is `Sequences.FindFirst`.
- "filter, stable sort by time, take element 0" is `Sequences.PickEarliest`, which returns the first element that passes the filter and has the minimal key.

Modules: `Wrappers`, `Sequences`, `Text`, `HttpErrors`, `GameSchema`, `BetSchema`, `Points`, `Bets`, `BetsProperties`, `Odds`, `Schedule`, `GamesProperties`, `Scenarios`.

## Model

| member | source | states |
|---|---|---|
| Bets.CreateBet | backend/src/bets/bets.service.ts:20-55 | Fields are checked in a fixed order, and the first failure returns BadRequest with its message: empty userId, then empty gameId, then a side other than "home"/"away", then a stake that is not finite or is ≤ 0. Next, an unknown external gameId returns NotFound, and a game that is not upcoming returns BadRequest. The call succeeds iff all of these pass. On success the games are unchanged and exactly one bet is appended: pending, odds -110, amount = stake, line = game spread or 0, gameRef = the game's internal id, no settledAt |
| Bets.SettleGame | backend/src/bets/bets.service.ts:65-108 | An unknown game returns NotFound, and a game that is not upcoming returns BadRequest. The call succeeds iff the game is upcoming. On success the game becomes final with the debug-or-default scores stored. Every bet pending on that game is resolved, and all other bets are unchanged. updatedBets is the pending-bet query result, in order, each bet resolved |
| Bets.FinalScores | backend/src/bets/bets.service.ts:75-79 | Settlement scores are debugHomeScore or else 110, and debugAwayScore or else 102 |
| Bets.BetOutcome | backend/src/bets/bets.service.ts:91-96 | The outcome is only ever won or lost. It is won iff the bet covers under the reference reading: backed team's margin + that team's handicap > 0, where the home handicap is the spread and the away handicap is minus the spread |
| Bets.Resolve | backend/src/bets/bets.service.ts:90-99 | A resolved bet keeps every placement snapshot field, gets settledAt = now, and is won or lost according to whether it covers |
| Bets.ResolvePending | backend/src/bets/bets.service.ts:83-100 | The loop leaves the bet store's length the same. Bets that are not pending on the game are unchanged, and pending ones are resolved. The returned list is the query result {gameId, status: pending}, in order, each bet resolved |
| Bets.BetsForUser | backend/src/bets/bets.service.ts:57-63 | The result holds exactly the user's bets, with multiplicity: each bet of the user appears as often as it is stored, and a bet of another user never appears |
| BetSchema.ParseSide | backend/src/bets/schemas/bet.schema.ts:7-21 | A side is accepted iff it is exactly "home" or "away". Each string maps to its own enum value |
| GameSchema.FindGame | backend/src/games/schemas/game.schema.ts:8-9 | Lookup by external id returns the first record with that id, and none iff no record has it. When external ids are unique, the record found is the only one with that id |
| BetsProperties.EmptyStoreConsistent | backend/src/admin/admin.controller.ts:24-30 | The empty store that the demo reset leaves behind satisfies the store invariant |
| BetsProperties.CreatePreservesConsistency | backend/src/bets/bets.service.ts:42-54 | A successful placement keeps the store invariant. The invariant is four facts: external ids are unique; upcoming games have no final scores; a pending bet has no settledAt and a won or lost bet has one; and each pending bet refers to an upcoming game |
| BetsProperties.SettlePreservesConsistency | backend/src/bets/bets.service.ts:83-105 | A successful settlement keeps the same store invariant |
| BetsProperties.SecondSettleFails | backend/src/bets/bets.service.ts:71-73 | Settlement is one-shot: settling the same game again fails with BadRequest, so no bet is re-scored |
| BetsProperties.SettleLeavesNothingPending | backend/src/bets/bets.service.ts:83-100 | After settlement, no bet on the settled game is pending |
| BetsProperties.SettlementKeepsSnapshots | backend/src/bets/schemas/bet.schema.ts:24-30 | Settlement never changes a bet's user, game, amount, side, line or odds |
| BetsProperties.UpdatedBetsAreStored | backend/src/bets/bets.service.ts:96-99 | Every bet returned in updatedBets is a record of the new bet store |
| BetsProperties.ValidationIgnoresStore | backend/src/bets/bets.service.ts:21-34 | Field validation happens before the game lookup: an invalid request fails with the same error whatever the store holds |
| BetsProperties.DuplicateBetsAccepted | backend/src/bets/bets.service.ts:46-54 | Placement has no duplicate check: repeating a successful placement succeeds, and the user then holds two identical bets on the game |
| BetsProperties.OppositeSidesNeverBothWin | backend/src/bets/bets.service.ts:91-94 | Home and away bets on the same game never both win |
| BetsProperties.BothSidesLoseOnlyOnTie | backend/src/bets/bets.service.ts:91-94 | Both sides lose iff home score + spread = away score. This is the push case, which the code settles as a double loss |
| Points.PointsForUser | backend/src/points/points.service.ts:23-30 | Returns the stored total, or 0 when the user has no entry. It never fails |
| Points.AddPoints | backend/src/points/points.service.ts:12-21 | Upsert-increment. A missing user gets an entry whose total is the amount; an existing total grows by exactly the amount. The returned entry is the stored one, and every other user's entry is unchanged |
| Points.AddThenRead | backend/src/points/points.service.ts:12-30 | Round trip: a read after addPoints(u, a) is the previous read plus a |
| Points.AddLeavesOthersAlone | backend/src/points/points.service.ts:16 | addPoints(u, a) changes no other user's reading |
| Points.ReadAfterAwards | backend/src/points/schemas/points.schema.ts:8-12 | After any sequence of increments, a user's reading is the starting reading plus the sum of the amounts addressed to that user |
| Points.NonNegativeAwardsNeverDecrease | backend/src/points/points.service.ts:12-21 | When no amount is negative, no user's reading ever decreases |
| Sequences.FindFirst | backend/src/games/games.service.ts:134-135 | find returns the first element that passes, and none iff no element passes |
| Sequences.FilterKeepsExactlyThePassing | backend/src/games/games.service.ts:109-111 | filter invents nothing and drops no element that passes |
| Sequences.FilterCounts | backend/src/bets/bets.service.ts:57-63 | filter keeps every occurrence of each passing element and none of a failing one |
| Sequences.Reverse | backend/src/bets/bets.service.ts:57-63 | Reversing puts the last element first and keeps the same elements with the same multiplicities |
| Sequences.PickEarliestAgrees | backend/src/games/games.service.ts:117-123 | Two filters that agree on every element pick the same element |
| Sequences.PickEarliest | backend/src/games/games.service.ts:117-123 | Filter, then stable sort by time, then take element 0. The result is none iff nothing passes; otherwise it is the first passing element whose key is minimal |
| Odds.FocusTeamName | backend/src/games/games.service.ts:34-35 | The focus team is the environment value when it is set and non-empty, and "Cleveland Cavaliers" otherwise |
| Odds.PickNextUpcomingCavsGame | backend/src/games/games.service.ts:92-124 | Returns null iff no event is both a Cavaliers game (lower-cased name contains "cavaliers") and strictly future. Otherwise it returns such an event whose time is ≤ every other candidate's, and it is the first such event in input order |
| Odds.PreferredBookmaker | backend/src/games/games.service.ts:134-135 | Picks the first FanDuel bookmaker in list order if any exists, and otherwise the first bookmaker |
| Odds.SpreadsMarketOf | backend/src/games/games.service.ts:137-139 | Finds the bookmaker's first market keyed "spreads" in list order (every earlier market has another key), or none when no market has that key |
| Odds.CavsOutcomeOf | backend/src/games/games.service.ts:144-147 | Finds the first outcome in list order whose lower-cased name contains "cavaliers", or none when no outcome does |
| Odds.MapOddsApiToGame | backend/src/games/games.service.ts:127-164 | Errors with the source's three messages, in order: no bookmakers, no spreads market, no Cavaliers outcome. Success is the upcoming record with spread = the Cavaliers point, bookmakerKey = the chosen bookmaker, and id, teams and time copied from the event |
| Odds.NextGameForUpsert | backend/src/games/games.service.ts:170-181 | Errors when no candidate exists. Otherwise the result is exactly mapOddsApiToGame of the event pickNextUpcomingCavsGame picks, error or record. Any record it would upsert is upcoming, strictly future, names the Cavaliers, carries the picked event's id, and starts no later than any other candidate |
| Odds.FanDuelOf | backend/src/games/games.service.ts:249-251 | Finds the first FanDuel bookmaker in list order, with no fallback, or none when there is none |
| Odds.FocusOutcomeOf | backend/src/games/games.service.ts:263-266 | Finds the first outcome in list order whose name equals the focus team exactly, or none when no outcome does |
| Odds.NextCavsGameFromOdds | backend/src/games/games.service.ts:226-278 | Returns null when no event names the focus team exactly and has a valid time ≥ now. Otherwise any result comes from the earliest such event, with its FanDuel spreads point for the focus team and bookmakerKey "fanduel". Conversely, when that event has a FanDuel bookmaker, a spreads market there and a focus-team outcome with a point, the result is not null |
| GamesProperties.DefaultFocusNamesCavaliers | backend/src/games/games.service.ts:33-35 | The default focus name contains "cavaliers" once lower-cased |
| GamesProperties.FocusMatchImpliesCavsMatch | backend/src/games/games.service.ts:228-232 | With the default focus name "Cleveland Cavaliers", every event the exact focus-name match accepts is also accepted by isCavsGame |
| GamesProperties.SubstringMatchIsLooser | backend/src/games/games.service.ts:92-98 | An event named only "CAVALIERS" passes isCavsGame but fails the exact match against the default focus name "Cleveland Cavaliers" |
| GamesProperties.StartingNowSeparatesThePaths | backend/src/games/games.service.ts:233-236 | An event starting exactly at now is kept by the dev-seed path and dropped by isUpcoming |
| GamesProperties.PathsAgreeWhenTestsAgree | backend/src/games/games.service.ts:108-124 | For any focus name, when the two paths' event tests agree on every event, the dev-seed path returns null whenever pickNextUpcomingCavsGame does, and any result it returns is the event pickNextUpcomingCavsGame picks |
| GamesProperties.UpcomingUntilTipoff | backend/src/games/games.service.ts:100-104 | isUpcoming holds iff the commence time is valid and strictly after now. So it only turns false as time passes, and is false for a missing or unparseable date |
| GamesProperties.CavsGameIffNameSpellsCavaliers | backend/src/games/games.service.ts:91-97 | isCavsGame holds iff one team name has a stretch that spells "cavaliers" in any letter case; an event with both names missing is never a Cavaliers game |
| Text.ToLower | backend/src/games/games.service.ts:92-93 | Lower-casing keeps the length, maps each character on its own, and leaves no upper-case ASCII letter |
| Text.ContainsIffScan | backend/src/games/games.service.ts:94-96 | includes, as "some position starts an occurrence", agrees with a left-to-right scan on every input |
| Schedule.PickFallbackSchedule | backend/src/games/games.service.ts:325-355 | Returns null iff no entry has a valid, strictly future time. Otherwise it returns the earliest such entry's teams and time with status upcoming. When several entries share that time, it returns the first one listed |
| GamesProperties.FallbackBeforeFirstTipoff | backend/src/games/static-schedule.ts:9-25 | Before 2029-11-20T23:30Z the fallback is Cavaliers v Bulls, which is listed last |
| GamesProperties.FallbackAfterFirstTipoff | backend/src/games/static-schedule.ts:15-19 | From the Bulls tip-off until 2029-12-15T23:00Z, the fallback is Heat v Cavaliers |
| GamesProperties.FallbackExhausted | backend/src/games/static-schedule.ts:10-14 | From 2030-01-01T00:30Z on, the fallback is null |
| Schedule.SideCompetitor | backend/src/games/games.service.ts:382-387 | Picks the first competitor in list order tagged with the side when one exists. Otherwise it picks the competitor at the fallback position, or none when the list is too short |
| Schedule.TeamName | backend/src/games/games.service.ts:393-400 | The team name is displayName, then name, then the "Unknown" default, with absent values falling through |
| Schedule.NormalizeEspnEvent | backend/src/games/games.service.ts:371-410 | An event is kept iff it has a valid date ≥ now and both a home and an away competitor. A kept event becomes an upcoming view at that date, named from those competitors |
| Schedule.NextScheduledGameFromEspn | backend/src/games/games.service.ts:370-436 | Returns null iff no event normalises. Otherwise it returns a normalised event that starts no earlier than now and no later than any other normalised event. When several share that time, it returns the first one listed |
| Schedule.NextScheduleOnly | backend/src/games/games.service.ts:293-323 | Any view returned is upcoming and not in the past. When the request succeeded, it is null iff no ESPN event normalises, and otherwise the earliest normalised event. When it failed, it is null iff no static entry is strictly future, and otherwise the earliest such entry, with its teams. Ties go to the first event or entry listed |
| GamesProperties.TaggedCompetitorsWinOverOrder | backend/src/games/games.service.ts:382-387 | A home-tagged competitor listed second is still the home team |
| GamesProperties.UntaggedCompetitorsByPosition | backend/src/games/games.service.ts:382-388 | With no tags, competitors[0] is home and competitors[1] is away |
| GamesProperties.LoneAwayCompetitorPlaysBothSides | backend/src/games/games.service.ts:382-391 | A lone away-tagged competitor fills both slots, so the event is kept with the team playing itself |
| GamesProperties.SingleUntaggedCompetitorDropped | backend/src/games/games.service.ts:385-391 | A single untagged competitor leaves no away competitor, so the event is dropped |
| GamesProperties.EmptyEspnAnswerSkipsFallback | backend/src/games/games.service.ts:299-307 | An ESPN answer with no usable event yields null, even while the static schedule still has future games |
| Scenarios.IngestPlaceSettle | backend/test/odds-bets.e2e-spec.ts:66-117 | Runs the service calls behind the test's steps: the odds event ingests as game-1 with spread -5.5 from FanDuel, a home bet of 10 is placed pending at line -5.5, and settlement stores 110-102 and returns that bet won |
| Scenarios.AwayFavouriteSpreadAppliedToHome | backend/src/games/games.service.ts:145-159 | The Cavaliers are away and favoured by 5.5, and the home team loses 100-102. The home team has covered its +5.5, yet the home bet settles as lost |

## Left out

- `Bets.BetOutcome`, `Points.AddPoints`: the model uses exact arithmetic: scores, spreads and stakes are `real`, and point amounts and totals are `int`. JavaScript numbers are IEEE doubles, so the two agree only when every value and every sum is exactly representable as a double: integer scores, half-point spreads, integral point amounts and totals below 2^53. For example, with scores 0.1 and 0.3 and spread 0.2 the source computes 0.1 + 0.2 > 0.3 and grades a home bet won, while the model grades it lost. Fractional point amounts are not modelled.
- Network I/O is left out: the Odds API and ESPN requests, the API-key lookup, and response-shape checks. Only what happens after a response arrives is modelled.
- The value that `getNextScheduledGameFromESPN` throws on a malformed response is left out. `NextScheduleOnly` takes a failed request as `None`.
- MongoDB mechanics are left out: `findOneAndUpdate` upserts, `populate`, `lean`, query `sort`, and generated `_id`s. Bets carry no `_id`; the bet sequence's order stands for creation order.
- Re-ingesting a settled game via the upsert would set its status back to upcoming. That upsert is Mongo mechanics and is not modelled.
- `getNextGame` is a Mongo query with sort, so it is not modelled.
- Date parsing and ISO rendering are left out. Times are already-parsed milliseconds, or `None` for NaN. `ScheduleView.startTime` is the instant, not the ISO string.
- `toLowerCase` is modelled for ASCII letters only.
- `Number(dto.stake)` conversion is left out. The stake arrives as a JS number: finite, NaN or ±Infinity.
- A `userId` or `gameId` that is `undefined` is modelled as the empty string, which has the same falsy behaviour.
- `String(userId)` normalisation in the points service is the identity on strings.
- The timestamp fields `createdAt`/`updatedAt` are left out.
- `Bets.BetsForUser`: its contract states which bets are listed, with multiplicity, but not their newest-first order. Its body reverses creation order.
- The model assumes that a query without a sort returns documents in insertion order. MongoDB does not promise this. It matters for the order of `updatedBets` and of `getBetsForUser`'s input.
- The source reads the clock afresh with `new Date()` for each settled bet (`bets.service.ts:97`) and for each event in `isUpcoming` (`games.service.ts:103`). The model uses one `now` per call.
- `seedNextGameForDev` and `seedFakeDemoGameForDev` are left out. The first is an upsert of `NextCavsGameFromOdds`'s result. The second depends on random choices and wall-clock arithmetic.
- `OddsRefreshService` is a timer loop and is not modelled.
- Auth, guards, controllers, modules and the frontend are wiring and are not modelled. Two controller quirks are not modelled either. First, a non-string reaches `settleGame`'s game id: `bets.controller.ts` passes the whole request body, and `games.controller.ts` passes an object `{gameId, finalHomeScore, finalAwayScore}`. Second, `bets.controller.ts` calls a `createBet` that the service does not define.
- Concurrency is left out: the check-then-act races in placement and in the settlement gate. Each operation is atomic.
- The code has no points award on settlement, no duplicate-bet rejection, no push outcome, and no use of `bet.line` when grading. The model has none of them either.

=== FILE: bet_schema.dfy ===
/** The `Bet` collection's record. */
module BetSchema {
  import opened Wrappers
  import opened GameSchema

  /** The schema's `side` enum: the bettor backs exactly one of the two teams. */
  datatype BetSide = Home | Away

  /** The schema's `status` enum. */
  datatype BetStatus = Pending | Won | Lost | Refunded

  /** Placeholder American odds every bet is given at placement. */
  const PlacementOdds: int := -110

  datatype Bet = Bet(
    userId: string,
    gameRef: ObjectId,        // internal id of the game the bet is on
    amount: real,
    side: BetSide,
    line: real,               // the game's spread at placement
    odds: int,                // the odds at placement
    status: BetStatus,
    settledAt: Option<Time>   // absent until settlement
  )

  /** The side named by a request's `side` string, if it is one of the two enum values. */
  function ParseSide(side: string): (r: Option<BetSide>)
    ensures r == Some(Home) <==> side == "home"
    ensures r == Some(Away) <==> side == "away"
    ensures r.None? <==> side != "home" && side != "away"
  {
    if side == "home" then Some(Home)
    else if side == "away" then Some(Away)
    else None
  }

  /** The fields fixed at placement: settlement may change only `status` and `settledAt`. */
  predicate SameSnapshot(a: Bet, b: Bet) {
    && a.userId == b.userId && a.gameRef == b.gameRef && a.amount == b.amount
    && a.side == b.side && a.line == b.line && a.odds == b.odds
  }
}

=== FILE: bets.dfy ===
/** The bets service: placing a bet on a stored game, settling every pending
    bet of a game, and listing a user's bets. The two collections are held as
    sequences in insertion order. The model takes that to be the order a query
    without a sort returns them in; the database itself does not promise it. */
module Bets {
  import opened Wrappers
  import opened HttpErrors
  import opened GameSchema
  import opened BetSchema
  import Sequences

  datatype Store = Store(games: seq<Game>, bets: seq<Bet>)

  /** A JavaScript number, as `Number(dto.stake)` produces it. */
  datatype JsNumber = Finite(value: real) | NaN | PositiveInfinity | NegativeInfinity

  /** The request body of a bet placement; an absent `gameId` reads as "". */
  datatype CreateBetDto = CreateBetDto(gameId: string, side: string, stake: JsNumber)

  const UserIdRequired := "userId is required"
  const GameIdRequired := "gameId is required"
  const SideInvalid := "side must be \"home\" or \"away\""
  const StakeInvalid := "stake must be a positive number"
  const GameNotFound := "Game not found"
  const BetOnClosedGame := "Cannot place a bet on a non-upcoming game"
  const SettleClosedGame := "Only upcoming games can be settled"

  /** Scores settlement falls back to when the game carries no debug scores. */
  const DefaultFinalHomeScore: real := 110.0
  const DefaultFinalAwayScore: real := 102.0

  /** `Number.isFinite(stake) && stake > 0`. */
  predicate PositiveStake(stake: JsNumber) {
    stake.Finite? && stake.value > 0.0
  }

  /** Every field check of a placement passes. */
  predicate ValidPlacement(userId: string, dto: CreateBetDto) {
    userId != "" && dto.gameId != "" && ParseSide(dto.side).Some? && PositiveStake(dto.stake)
  }

  /** The game a placement or settlement would act on: found and still upcoming. */
  predicate OpenGame(store: Store, gameId: string) {
    var k := FindGame(store.games, gameId);
    k.Some? && store.games[k.value].status == Upcoming
  }

  datatype Placed = Placed(store: Store, bet: Bet)

  /** `create`: four field checks in a fixed order, each failing fast, then the
      game lookup and the status gate, then one new pending bet carrying the
      game's spread as its line. The game is not modified. */
  function CreateBet(store: Store, userId: string, dto: CreateBetDto): (r: Result<Placed, HttpError>)
    ensures userId == "" ==> r == Failure(BadRequest(UserIdRequired))
    ensures userId != "" && dto.gameId == "" ==> r == Failure(BadRequest(GameIdRequired))
    ensures userId != "" && dto.gameId != "" && dto.side != "home" && dto.side != "away" ==>
      r == Failure(BadRequest(SideInvalid))
    ensures userId != "" && dto.gameId != "" && ParseSide(dto.side).Some? && !PositiveStake(dto.stake) ==>
      r == Failure(BadRequest(StakeInvalid))
    ensures ValidPlacement(userId, dto) && FindGame(store.games, dto.gameId).None? ==>
      r == Failure(NotFound(GameNotFound))
    ensures ValidPlacement(userId, dto) && FindGame(store.games, dto.gameId).Some? && !OpenGame(store, dto.gameId) ==>
      r == Failure(BadRequest(BetOnClosedGame))
    ensures r.Success? <==> ValidPlacement(userId, dto) && OpenGame(store, dto.gameId)
    ensures r.Success? ==>
      var g := store.games[FindGame(store.games, dto.gameId).value];
      var b := r.value.bet;
      && r.value.store.games == store.games
      && r.value.store.bets == store.bets + [b]
      && b.userId == userId && b.gameRef == g.oid && b.amount == dto.stake.value
      && (b.side == Home <==> dto.side == "home") && (b.side == Away <==> dto.side == "away")
      && (g.spread.Some? ==> b.line == g.spread.value) && (g.spread.None? ==> b.line == 0.0)
      && b.odds == -110 && b.status == Pending && b.settledAt.None?
  {
    if userId == "" then Failure(BadRequest(UserIdRequired))
    else if dto.gameId == "" then Failure(BadRequest(GameIdRequired))
    else if ParseSide(dto.side).None? then Failure(BadRequest(SideInvalid))
    else if !PositiveStake(dto.stake) then Failure(BadRequest(StakeInvalid))
    else
      match FindGame(store.games, dto.gameId)
      case None => Failure(NotFound(GameNotFound))
      case Some(k) =>
        var game := store.games[k];
        if game.status != Upcoming then Failure(BadRequest(BetOnClosedGame))
        else
          var bet := Bet(userId, game.oid, dto.stake.value, ParseSide(dto.side).value,
                         game.spread.GetOr(0.0), PlacementOdds, Pending, None);
          Success(Placed(Store(store.games, store.bets + [bet]), bet))
  }

  function OwnedBy(userId: string): Bet -> bool {
    (b: Bet) => b.userId == userId
  }

  /** `FilterCounts` for the ownership test of `getBetsForUser`. */
  lemma OwnedCounts(bets: seq<Bet>, userId: string)
    ensures forall b :: (multiset(Sequences.Filter(bets, OwnedBy(userId)))[b] ==
      if b.userId == userId then multiset(bets)[b] else 0)
  {
    Sequences.FilterCounts(bets, OwnedBy(userId));
  }

  /** The listing `getBetsForUser` builds holds the user's bets with their multiplicities. */
  lemma OwnedListing(bets: seq<Bet>, userId: string)
    ensures var r := Sequences.Reverse(Sequences.Filter(bets, OwnedBy(userId)));
      && (forall b :: multiset(r)[b] == if b.userId == userId then multiset(bets)[b] else 0)
      && (forall i :: 0 <= i < |r| ==> r[i].userId == userId && r[i] in bets)
      && (forall i :: 0 <= i < |bets| && bets[i].userId == userId ==> bets[i] in r)
  {
    var r := Sequences.Reverse(Sequences.Filter(bets, OwnedBy(userId)));
    OwnedCounts(bets, userId);
    forall i | 0 <= i < |r|
      ensures r[i].userId == userId && r[i] in bets
    {
      assert multiset(r)[r[i]] > 0;
    }
    forall i | 0 <= i < |bets| && bets[i].userId == userId
      ensures bets[i] in r
    {
      assert multiset(bets)[bets[i]] > 0;
    }
  }

  /** `getBetsForUser`: the user's bets, newest first (creation order reversed). */
  function BetsForUser(bets: seq<Bet>, userId: string): (r: seq<Bet>)
    ensures forall i :: 0 <= i < |r| ==> r[i].userId == userId && r[i] in bets
    ensures forall i :: 0 <= i < |bets| && bets[i].userId == userId ==> bets[i] in r
    ensures forall b :: multiset(r)[b] == if b.userId == userId then multiset(bets)[b] else 0
  {
    OwnedListing(bets, userId);
    Sequences.Reverse(Sequences.Filter(bets, OwnedBy(userId)))
  }

  /** The reference reading of a spread bet: the backed team's winning margin
      plus the handicap credited to that team must be positive. The game's
      spread is credited to the home team and debited from the away team. */
  predicate Covers(side: BetSide, homeScore: real, awayScore: real, spread: real) {
    var margin := if side == Home then homeScore - awayScore else awayScore - homeScore;
    var handicap := if side == Home then spread else -spread;
    margin + handicap > 0.0
  }

  /** The outcome rule of settlement: two outcomes only, no push. */
  function BetOutcome(side: BetSide, homeScore: real, awayScore: real, spread: real): (r: BetStatus)
    ensures r == Won || r == Lost
    ensures r == Won <==> Covers(side, homeScore, awayScore, spread)
  {
    var won := match side
      case Home => homeScore + spread > awayScore
      case Away => awayScore - spread > homeScore;
    if won then Won else Lost
  }

  /** The query `{ gameId: game._id, status: 'pending' }`. */
  function PendingOn(oid: ObjectId): Bet -> bool {
    (b: Bet) => b.gameRef == oid && b.status == Pending
  }

  /** One pass of the settlement loop body on one bet. */
  function Resolve(b: Bet, homeScore: real, awayScore: real, spread: real, now: Time): (r: Bet)
    ensures SameSnapshot(r, b)
    ensures r.settledAt == Some(now)
    ensures r.status == Won || r.status == Lost
    ensures r.status == Won <==> Covers(b.side, homeScore, awayScore, spread)
  {
    b.(status := BetOutcome(b.side, homeScore, awayScore, spread), settledAt := Some(now))
  }

  /** The settlement loop: the bet store afterwards, and the processed bets in query order. */
  function ResolvePending(bets: seq<Bet>, oid: ObjectId, homeScore: real, awayScore: real, spread: real, now: Time)
    : (r: (seq<Bet>, seq<Bet>))
    ensures |r.0| == |bets|
    ensures forall i :: 0 <= i < |bets| && !PendingOn(oid)(bets[i]) ==> r.0[i] == bets[i]
    ensures forall i :: 0 <= i < |bets| && PendingOn(oid)(bets[i]) ==>
      r.0[i] == Resolve(bets[i], homeScore, awayScore, spread, now)
    ensures var q := Sequences.Filter(bets, PendingOn(oid));
      |r.1| == |q| && forall k :: 0 <= k < |q| ==> r.1[k] == Resolve(q[k], homeScore, awayScore, spread, now)
    decreases |bets|
  {
    if |bets| == 0 then ([], [])
    else
      var tail := bets[1..];
      var rest := ResolvePending(tail, oid, homeScore, awayScore, spread, now);
      assert forall i :: 1 <= i < |bets| ==> bets[i] == tail[i - 1];
      assert bets == [bets[0]] + tail;
      if PendingOn(oid)(bets[0]) then
        var b := Resolve(bets[0], homeScore, awayScore, spread, now);
        ghost var q := Sequences.Filter(tail, PendingOn(oid));
        assert Sequences.Filter(bets, PendingOn(oid)) == [bets[0]] + q;
        var r := ([b] + rest.0, [b] + rest.1);
        assert forall k :: 1 <= k < |r.1| ==> r.1[k] == rest.1[k - 1];
        r
      else
        assert Sequences.Filter(bets, PendingOn(oid)) == Sequences.Filter(tail, PendingOn(oid));
        ([bets[0]] + rest.0, rest.1)
  }

  datatype Settlement = Settlement(store: Store, game: Game, updatedBets: seq<Bet>)

  /** The final scores settlement uses: the debug scores when present, else 110 and 102. */
  function FinalScores(g: Game): (r: (real, real))
    ensures g.debugHomeScore.Some? ==> r.0 == g.debugHomeScore.value
    ensures g.debugHomeScore.None? ==> r.0 == DefaultFinalHomeScore
    ensures g.debugAwayScore.Some? ==> r.1 == g.debugAwayScore.value
    ensures g.debugAwayScore.None? ==> r.1 == DefaultFinalAwayScore
  {
    (g.debugHomeScore.GetOr(DefaultFinalHomeScore), g.debugAwayScore.GetOr(DefaultFinalAwayScore))
  }

  /** What a successful settlement of `gameId` at time `now` leaves behind. */
  ghost predicate SettledAsWritten(store: Store, gameId: string, now: Time, s: Settlement)
    requires FindGame(store.games, gameId).Some?
  {
    var k := FindGame(store.games, gameId).value;
    var g := store.games[k];
    var (home, away) := FinalScores(g);
    var spread := g.spread.GetOr(0.0);
    var q := Sequences.Filter(store.bets, PendingOn(g.oid));
    && s.game == g.(status := Final, finalHomeScore := Some(home), finalAwayScore := Some(away))
    && s.store.games == store.games[k := s.game]
    && |s.store.bets| == |store.bets|
    && (forall i :: 0 <= i < |store.bets| && !PendingOn(g.oid)(store.bets[i]) ==> s.store.bets[i] == store.bets[i])
    && (forall i :: 0 <= i < |store.bets| && PendingOn(g.oid)(store.bets[i]) ==>
          s.store.bets[i] == Resolve(store.bets[i], home, away, spread, now))
    && |s.updatedBets| == |q|
    && (forall j :: 0 <= j < |q| ==> s.updatedBets[j] == Resolve(q[j], home, away, spread, now))
  }

  /** `settleGame`: a one-shot gate on the game being upcoming, then every
      pending bet of the game resolved against the game's current spread and the
      debug-or-default scores, then the game marked final with those scores.
      The caller's own scores are not an input: the service ignores them. */
  function SettleGame(store: Store, gameId: string, now: Time): (r: Result<Settlement, HttpError>)
    ensures FindGame(store.games, gameId).None? ==> r == Failure(NotFound(GameNotFound))
    ensures FindGame(store.games, gameId).Some? && !OpenGame(store, gameId) ==>
      r == Failure(BadRequest(SettleClosedGame))
    ensures r.Success? <==> OpenGame(store, gameId)
    ensures r.Success? ==> SettledAsWritten(store, gameId, now, r.value)
  {
    match FindGame(store.games, gameId)
    case None => Failure(NotFound(GameNotFound))
    case Some(k) =>
      var game := store.games[k];
      if game.status != Upcoming then Failure(BadRequest(SettleClosedGame))
      else
        var (home, away) := FinalScores(game);
        var spread := game.spread.GetOr(0.0);
        var (bets, updated) := ResolvePending(store.bets, game.oid, home, away, spread, now);
        var finalGame := game.(status := Final, finalHomeScore := Some(home), finalAwayScore := Some(away));
        Success(Settlement(Store(store.games[k := finalGame], bets), finalGame, updated))
  }
}

=== FILE: bets_properties.dfy ===
/** Properties of the bets service that relate several calls: the store
    invariant both operations keep, the one-shot settlement gate, the outcome
    rule's symmetry, and the behaviours the code shows as written. */
module BetsProperties {
  import opened Wrappers
  import opened HttpErrors
  import opened GameSchema
  import opened BetSchema
  import opened Bets
  import Sequences

  /** A pending bet has no `settledAt`; a won or lost bet has one. A refunded bet may have either. */
  predicate SettlementStamped(b: Bet) {
    && (b.status == Pending ==> b.settledAt.None?)
    && (b.status == Won || b.status == Lost ==> b.settledAt.Some?)
  }

  /** Some record with internal id `oid` is an upcoming game. */
  ghost predicate HasUpcomingGame(games: seq<Game>, oid: ObjectId) {
    exists j :: 0 <= j < |games| && games[j].oid == oid && games[j].status == Upcoming
  }

  /** The store invariant: unique external ids, no final scores on an upcoming
      game, settlement stamps matching bet status, and every pending bet
      waiting on a game that can still be settled. */
  ghost predicate Consistent(s: Store) {
    && UniqueExternalIds(s.games)
    && (forall i :: 0 <= i < |s.games| && s.games[i].status == Upcoming ==>
          s.games[i].finalHomeScore.None? && s.games[i].finalAwayScore.None?)
    && (forall i :: 0 <= i < |s.bets| ==> SettlementStamped(s.bets[i]))
    && (forall i :: 0 <= i < |s.bets| && s.bets[i].status == Pending ==>
          HasUpcomingGame(s.games, s.bets[i].gameRef))
  }

  /** The empty store is consistent, so the invariant holds from the start. */
  lemma EmptyStoreConsistent()
    ensures Consistent(Store([], []))
  {
  }

  /** A successful placement keeps the store invariant. */
  lemma CreatePreservesConsistency(store: Store, userId: string, dto: CreateBetDto)
    requires Consistent(store)
    requires CreateBet(store, userId, dto).Success?
    ensures Consistent(CreateBet(store, userId, dto).value.store)
  {
    var placed := CreateBet(store, userId, dto).value;
    var k := FindGame(store.games, dto.gameId).value;
    var s' := placed.store;
    forall i | 0 <= i < |s'.bets| && s'.bets[i].status == Pending
      ensures HasUpcomingGame(s'.games, s'.bets[i].gameRef)
    {
      if i == |store.bets| {
        assert s'.games[k].oid == s'.bets[i].gameRef;
      } else {
        assert s'.bets[i] == store.bets[i];
      }
    }
  }

  /** A successful settlement keeps the store invariant. */
  lemma SettlePreservesConsistency(store: Store, gameId: string, now: Time)
    requires Consistent(store)
    requires SettleGame(store, gameId, now).Success?
    ensures Consistent(SettleGame(store, gameId, now).value.store)
  {
    var s := SettleGame(store, gameId, now).value;
    var k := FindGame(store.games, gameId).value;
    var g := store.games[k];
    var s' := s.store;
    assert forall i :: 0 <= i < |s'.games| ==> s'.games[i].gameId == store.games[i].gameId;
    forall i | 0 <= i < |s'.bets|
      ensures SettlementStamped(s'.bets[i])
    {
      assert SettlementStamped(store.bets[i]);
    }
    forall i | 0 <= i < |s'.bets| && s'.bets[i].status == Pending
      ensures HasUpcomingGame(s'.games, s'.bets[i].gameRef)
    {
      var b := store.bets[i];
      assert !PendingOn(g.oid)(b);
      assert s'.bets[i] == b;
      var j :| 0 <= j < |store.games| && store.games[j].oid == b.gameRef && store.games[j].status == Upcoming;
      assert j != k;
      assert s'.games[j] == store.games[j];
    }
  }

  /** Settlement is one-shot: once a game has settled, settling it again fails
      with the status error, so no bet can be re-scored. */
  lemma SecondSettleFails(store: Store, gameId: string, now: Time, later: Time)
    requires SettleGame(store, gameId, now).Success?
    ensures SettleGame(SettleGame(store, gameId, now).value.store, gameId, later)
         == Failure(BadRequest(SettleClosedGame))
  {
    var s' := SettleGame(store, gameId, now).value.store;
    var k := FindGame(store.games, gameId).value;
    assert forall i :: 0 <= i < |s'.games| ==> s'.games[i].gameId == store.games[i].gameId;
    assert FindGame(s'.games, gameId) == Some(k);
  }

  /** After settlement no bet on the settled game is still pending, and every
      bet that was pending on it is now won or lost. */
  lemma SettleLeavesNothingPending(store: Store, gameId: string, now: Time)
    requires SettleGame(store, gameId, now).Success?
    ensures var g := store.games[FindGame(store.games, gameId).value];
      var after := SettleGame(store, gameId, now).value.store.bets;
      forall i :: 0 <= i < |after| && after[i].gameRef == g.oid ==> after[i].status != Pending
  {
  }

  /** Settlement changes only `status` and `settledAt`: the line, odds, stake,
      side, owner and game reference captured at placement survive. */
  lemma SettlementKeepsSnapshots(store: Store, gameId: string, now: Time)
    requires SettleGame(store, gameId, now).Success?
    ensures var after := SettleGame(store, gameId, now).value.store.bets;
      |after| == |store.bets| && forall i :: 0 <= i < |after| ==> SameSnapshot(after[i], store.bets[i])
  {
  }

  /** Every bet in the returned `updatedBets` is a record of the new bet store. */
  lemma UpdatedBetsAreStored(store: Store, gameId: string, now: Time)
    requires SettleGame(store, gameId, now).Success?
    ensures var s := SettleGame(store, gameId, now).value;
      forall j :: 0 <= j < |s.updatedBets| ==> s.updatedBets[j] in s.store.bets
  {
    var s := SettleGame(store, gameId, now).value;
    var g := store.games[FindGame(store.games, gameId).value];
    var q := Sequences.Filter(store.bets, PendingOn(g.oid));
    Sequences.FilterKeepsExactlyThePassing(store.bets, PendingOn(g.oid));
    forall j | 0 <= j < |s.updatedBets|
      ensures s.updatedBets[j] in s.store.bets
    {
      assert q[j] in store.bets;
      var i :| 0 <= i < |store.bets| && store.bets[i] == q[j];
      assert s.store.bets[i] == s.updatedBets[j];
    }
  }

  /** Field validation happens before any lookup: an invalid request gets the
      same error whatever the store holds. */
  lemma ValidationIgnoresStore(s1: Store, s2: Store, userId: string, dto: CreateBetDto)
    requires !ValidPlacement(userId, dto)
    ensures CreateBet(s1, userId, dto).Failure?
    ensures CreateBet(s1, userId, dto) == CreateBet(s2, userId, dto)
  {
  }

  /** No duplicate check: a placement that succeeded succeeds again on the
      resulting store, leaving the same user with two bets on the same game. */
  lemma DuplicateBetsAccepted(store: Store, userId: string, dto: CreateBetDto)
    requires CreateBet(store, userId, dto).Success?
    ensures var first := CreateBet(store, userId, dto).value;
      var second := CreateBet(first.store, userId, dto);
      && second.Success?
      && second.value.store.bets == store.bets + [first.bet, second.value.bet]
      && first.bet == second.value.bet
  {
  }

  /** Home and away bets on the same game never both win. */
  lemma OppositeSidesNeverBothWin(homeScore: real, awayScore: real, spread: real)
    ensures !(BetOutcome(Home, homeScore, awayScore, spread) == Won
              && BetOutcome(Away, homeScore, awayScore, spread) == Won)
  {
  }

  /** With no push outcome, both sides lose exactly when the spread ties the game. */
  lemma BothSidesLoseOnlyOnTie(homeScore: real, awayScore: real, spread: real)
    ensures (BetOutcome(Home, homeScore, awayScore, spread) == Lost
             && BetOutcome(Away, homeScore, awayScore, spread) == Lost)
        <==> homeScore + spread == awayScore
  {
  }
}

=== FILE: game_schema.dfy ===
/** The `Game` collection's record. */
module GameSchema {
  import opened Wrappers
  import Sequences

  /** Internal storage identity (Mongo's `_id`), distinct from the external `gameId`. */
  type ObjectId = nat

  /** Milliseconds since the epoch. */
  type Time = int

  /** The four values the schema's `status` enum admits. */
  datatype GameStatus = Upcoming | Live | Completed | Final

  datatype Game = Game(
    oid: ObjectId,
    gameId: string,               // external (odds provider's) event id, unique per record
    homeTeam: Option<string>,
    awayTeam: Option<string>,
    startTime: Option<Time>,
    spread: Option<real>,         // the Cavaliers' point in the spreads market
    homeScore: Option<real>,
    awayScore: Option<real>,
    bookmakerKey: string,
    status: GameStatus,
    finalHomeScore: Option<real>, // absent until the game is finalised
    finalAwayScore: Option<real>,
    debugHomeScore: Option<real>, // optional inputs to settlement
    debugAwayScore: Option<real>
  )

  /** At most one record per external id (the schema's unique index). */
  ghost predicate UniqueExternalIds(games: seq<Game>) {
    forall i, j :: 0 <= i < j < |games| ==> games[i].gameId != games[j].gameId
  }

  /** `findOne({ gameId })`: the first record carrying the external id. */
  function FindGame(games: seq<Game>, gameId: string): (r: Option<nat>)
    ensures r.None? <==> forall i :: 0 <= i < |games| ==> games[i].gameId != gameId
    ensures r.Some? ==> r.value < |games| && games[r.value].gameId == gameId
    ensures r.Some? && UniqueExternalIds(games) ==>
      forall j :: 0 <= j < |games| && games[j].gameId == gameId ==> j == r.value
    ensures r.Some? ==> forall j :: 0 <= j < r.value ==> games[j].gameId != gameId
  {
    Sequences.FindFirst(games, (g: Game) => g.gameId == gameId)
  }
}

=== FILE: games_properties.dfy ===
/** Properties of the games service's pure helpers: how the two odds paths
    differ, what the static fallback yields, and how ESPN competitors are
    assigned to the home and away slots. */
module GamesProperties {
  import opened Wrappers
  import opened GameSchema
  import opened Text
  import opened Odds
  import opened Schedule
  import Sequences

  /** The default focus team name contains "cavaliers" once lower-cased. */
  lemma DefaultFocusNamesCavaliers()
    ensures Contains(ToLower(DefaultFocusTeamName), CavsTeamName)
  {
    var s := ToLower(DefaultFocusTeamName);
    assert s[10..19] == CavsTeamName;
    assert OccursAt(s, CavsTeamName, 10);
  }

  /** With the default focus name, every event the dev-seed path's exact team
      match accepts is also accepted by `isCavsGame`. */
  lemma FocusMatchImpliesCavsMatch(e: OddsEvent)
    requires IsFocusGame(e, DefaultFocusTeamName)
    ensures IsCavsGame(e)
  {
    DefaultFocusNamesCavaliers();
  }

  /** The substring match is looser: an event naming the team in capitals only
      is a Cavaliers game to `isCavsGame` but not to the exact match. */
  lemma SubstringMatchIsLooser(id: string, when: Option<Time>)
    ensures var e := OddsEvent(id, Some("CAVALIERS"), Some("Boston Celtics"), when, None);
      IsCavsGame(e) && !IsFocusGame(e, DefaultFocusTeamName)
  {
    var e := OddsEvent(id, Some("CAVALIERS"), Some("Boston Celtics"), when, None);
    var s := ToLower(OrEmpty(e.homeTeam));
    assert s == CavsTeamName;
    assert OccursAt(s, CavsTeamName, 0);
  }

  /** An event tipping off exactly at `now` separates the two time tests: the
      dev-seed path keeps it, `isUpcoming` does not. */
  lemma StartingNowSeparatesThePaths(e: OddsEvent, now: Time)
    requires e.commenceTime == Some(now)
    ensures StartsNowOrLater(e, now) && !IsUpcoming(e, now)
  {
  }

  /** Where the two paths' event tests agree on every event, they read the same
      event: whatever the dev-seed path returns for the focus team was taken from
      the event `pickNextUpcomingCavsGame` picks. */
  lemma PathsAgreeWhenTestsAgree(data: seq<OddsEvent>, now: Time, focus: string)
    requires forall i :: 0 <= i < |data| ==>
      IsNextCandidate(now)(data[i]) == IsSeedCandidate(now, focus)(data[i])
    ensures PickNextUpcomingCavsGame(data, now).None? ==> NextCavsGameFromOdds(data, now, focus).None?
    ensures NextCavsGameFromOdds(data, now, focus).Some? ==>
      && PickNextUpcomingCavsGame(data, now).Some?
      && var e := PickNextUpcomingCavsGame(data, now).value;
      && NextCavsGameFromOdds(data, now, focus).value.externalGameId == e.id
      && NextCavsGameFromOdds(data, now, focus).value.startTime == e.commenceTime.value
  {
    Sequences.PickEarliestAgrees(data, IsNextCandidate(now), IsSeedCandidate(now, focus), CommenceKey);
  }

  /** `isUpcoming` only ever turns false as time passes, is false from the
      commence time on, and is never true for a missing or unparseable date. */
  lemma UpcomingUntilTipoff(e: OddsEvent, earlier: Time, now: Time)
    requires earlier <= now
    ensures IsUpcoming(e, now) ==> IsUpcoming(e, earlier)
    ensures e.commenceTime.Some? && now >= e.commenceTime.value ==> !IsUpcoming(e, now)
    ensures e.commenceTime.None? ==> !IsUpcoming(e, now)
    ensures e.commenceTime.Some? && e.commenceTime.value > now ==> IsUpcoming(e, now)
  {
  }

  /** A name that spells out "cavaliers" somewhere, in any letter case. */
  ghost predicate SpellsCavaliers(name: string) {
    exists i :: SpellsCavaliersAt(name, i)
  }

  predicate SpellsCavaliersAt(name: string, i: int) {
    0 <= i && i + |CavsTeamName| <= |name| && ToLower(name[i..i + |CavsTeamName|]) == CavsTeamName
  }

  /** `isCavsGame` holds exactly when a team name has a window that lower-cases
      to "cavaliers"; a missing name counts as the empty string and never matches. */
  lemma CavsGameIffNameSpellsCavaliers(e: OddsEvent)
    ensures IsCavsGame(e) <==> SpellsCavaliers(OrEmpty(e.homeTeam)) || SpellsCavaliers(OrEmpty(e.awayTeam))
    ensures e.homeTeam.None? && e.awayTeam.None? ==> !IsCavsGame(e)
  {
    WindowMatch(OrEmpty(e.homeTeam));
    WindowMatch(OrEmpty(e.awayTeam));
  }

  lemma WindowMatch(name: string)
    ensures Contains(ToLower(name), CavsTeamName) <==> SpellsCavaliers(name)
  {
    var n := |CavsTeamName|;
    if Contains(ToLower(name), CavsTeamName) {
      var i :| 0 <= i <= |ToLower(name)| && OccursAt(ToLower(name), CavsTeamName, i);
      ToLowerWindow(name, i, i + n);
      assert SpellsCavaliersAt(name, i);
    }
    if SpellsCavaliers(name) {
      var i :| SpellsCavaliersAt(name, i);
      ToLowerWindow(name, i, i + n);
      assert OccursAt(ToLower(name), CavsTeamName, i);
    }
  }

  /** Before the first static tip-off the fallback is the Chicago game, the
      earliest entry although it is listed last. */
  lemma FallbackBeforeFirstTipoff(now: Time)
    requires now < 1889911800000
    ensures PickFallbackSchedule(StaticCavsSchedule, now)
         == Some(ScheduleView("Cleveland Cavaliers", "Chicago Bulls", 1889911800000, Upcoming))
  {
  }

  /** Between the first and second static tip-offs the fallback is the Miami game. */
  lemma FallbackAfterFirstTipoff(now: Time)
    requires 1889911800000 <= now < 1892070000000
    ensures PickFallbackSchedule(StaticCavsSchedule, now)
         == Some(ScheduleView("Miami Heat", "Cleveland Cavaliers", 1892070000000, Upcoming))
  {
  }

  /** From the last static tip-off on, the fallback has nothing to offer. */
  lemma FallbackExhausted(now: Time)
    requires now >= 1893457800000
    ensures PickFallbackSchedule(StaticCavsSchedule, now).None?
  {
  }

  /** Tags win over position: a home-tagged competitor listed second is still the home team. */
  lemma TaggedCompetitorsWinOverOrder(date: Time, now: Time, away: EspnTeam, home: EspnTeam)
    requires date >= now
    ensures var e := EspnEvent(Some(date), Some([Competition(Some([
                Competitor(Some("away"), Some(away)), Competitor(Some("home"), Some(home))]))]));
      && NormalizeEspnEvent(e, now).Some?
      && NormalizeEspnEvent(e, now).value.homeTeam == TeamName(Competitor(Some("home"), Some(home)), UnknownHome)
      && NormalizeEspnEvent(e, now).value.awayTeam == TeamName(Competitor(Some("away"), Some(away)), UnknownAway)
  {
    var cs := [Competitor(Some("away"), Some(away)), Competitor(Some("home"), Some(home))];
    var e := EspnEvent(Some(date), Some([Competition(Some(cs))]));
    assert CompetitorsOf(e) == cs;
    assert cs[1].homeAway == Some("home");
    assert SideCompetitor(cs, "home", 0) == Some(cs[1]);
    assert cs[0].homeAway == Some("away");
    assert SideCompetitor(cs, "away", 1) == Some(cs[0]);
  }

  /** Without tags, the first competitor is home and the second away. */
  lemma UntaggedCompetitorsByPosition(e: EspnEvent, now: Time)
    requires e.date.Some? && e.date.value >= now
    requires |CompetitorsOf(e)| >= 2
    requires forall i :: 0 <= i < |CompetitorsOf(e)| ==> CompetitorsOf(e)[i].homeAway.None?
    ensures NormalizeEspnEvent(e, now).Some?
    ensures NormalizeEspnEvent(e, now).value.homeTeam == TeamName(CompetitorsOf(e)[0], UnknownHome)
    ensures NormalizeEspnEvent(e, now).value.awayTeam == TeamName(CompetitorsOf(e)[1], UnknownAway)
  {
  }

  /** A lone away-tagged competitor fills both slots: the home search falls back
      to position 0, which is that same competitor, so the event is kept with
      one team playing itself. */
  lemma LoneAwayCompetitorPlaysBothSides(date: Time, now: Time, name: string)
    requires date >= now
    ensures var c := Competitor(Some("away"), Some(EspnTeam(Some(name), None)));
      var e := EspnEvent(Some(date), Some([Competition(Some([c]))]));
      NormalizeEspnEvent(e, now) == Some(ScheduleView(name, name, date, Upcoming))
  {
  }

  /** A single untagged competitor is not enough: there is no second position to fall back to. */
  lemma SingleUntaggedCompetitorDropped(date: Time, now: Time, c: Competitor)
    requires c.homeAway.None?
    ensures NormalizeEspnEvent(EspnEvent(Some(date), Some([Competition(Some([c]))])), now).None?
  {
  }

  /** The static fallback is consulted only when the ESPN request fails: an
      ESPN answer with no usable event yields `null` even while the static
      schedule still has future games. */
  lemma EmptyEspnAnswerSkipsFallback(events: seq<EspnEvent>, now: Time)
    requires forall i :: 0 <= i < |events| ==> NormalizeEspnEvent(events[i], now).None?
    requires now < 1889911800000
    ensures NextScheduleOnly(Some(events), StaticCavsSchedule, now).None?
    ensures NextScheduleOnly(None, StaticCavsSchedule, now).Some?
  {
    FallbackBeforeFirstTipoff(now);
  }
}

=== FILE: http_errors.dfy ===
/** The NestJS exceptions the services throw: the HTTP class plus its message. */
module HttpErrors {

  datatype HttpError =
    | BadRequest(message: string)
    | NotFound(message: string)
    | InternalServerError(message: string)
}

=== FILE: odds.dfy ===
/** What the games service does with an odds-provider response once it has
    arrived: recognise the tracked team's events, keep the future ones, pick the
    earliest, and extract the team's spread from a bookmaker's spreads market.
    Two paths do this with different rules: the one behind `POST /games/next`
    (substring team match, strictly future, errors when the data is
    incomplete) and the dev-seed fetch (exact team match, now-or-later, `null`
    when the data is incomplete). */
module Odds {
  import opened Wrappers
  import opened HttpErrors
  import opened GameSchema
  import opened Text
  import Sequences

  /** One priced outcome of a market; `point` is absent when missing or not a number. */
  datatype PriceOutcome = PriceOutcome(name: Option<string>, point: Option<real>)

  datatype Market = Market(key: string, outcomes: Option<seq<PriceOutcome>>)

  datatype Bookmaker = Bookmaker(key: string, markets: Option<seq<Market>>)

  /** One event of the odds response; `commenceTime` is absent when the date does not parse. */
  datatype OddsEvent = OddsEvent(
    id: string,
    homeTeam: Option<string>,
    awayTeam: Option<string>,
    commenceTime: Option<Time>,
    bookmakers: Option<seq<Bookmaker>>
  )

  const CavsTeamName := "cavaliers"
  const DefaultFocusTeamName := "Cleveland Cavaliers"
  const FanDuel := "fanduel"
  const SpreadsKey := "spreads"

  const NoBookmakers := "No bookmakers in odds data"
  const NoSpreadsMarket := "No spreads market in odds data"
  const NoCavsOutcome := "No Cavaliers outcome found in spreads"
  const NoUpcomingCavsGame := "No upcoming Cavaliers game found"

  /** `value || ''`: an absent or empty name reads as the empty string. */
  function OrEmpty(s: Option<string>): string {
    s.GetOr("")
  }

  /** `process.env.FOCUS_TEAM_NAME || 'Cleveland Cavaliers'`. */
  function FocusTeamName(env: Option<string>): (r: string)
    ensures env.Some? && env.value != "" ==> r == env.value
    ensures env.None? || env.value == "" ==> r == DefaultFocusTeamName
    ensures r != ""
  {
    if env.Some? && env.value != "" then env.value else DefaultFocusTeamName
  }

  /** `isCavsGame`: either team's lower-cased name contains "cavaliers". */
  predicate IsCavsGame(e: OddsEvent) {
    Contains(ToLower(OrEmpty(e.homeTeam)), CavsTeamName) || Contains(ToLower(OrEmpty(e.awayTeam)), CavsTeamName)
  }

  /** `isUpcoming`: strictly after `now`; an unparseable date (NaN) never is. */
  predicate IsUpcoming(e: OddsEvent, now: Time) {
    e.commenceTime.Some? && e.commenceTime.value > now
  }

  /** The sort key: the parsed commence time (only consulted on events that have one). */
  function CommenceKey(e: OddsEvent): int {
    e.commenceTime.GetOr(0)
  }

  function IsNextCandidate(now: Time): OddsEvent -> bool {
    (e: OddsEvent) => IsCavsGame(e) && IsUpcoming(e, now)
  }

  /** `pickNextUpcomingCavsGame`: `null` exactly when no event is both a Cavaliers
      game and strictly future; otherwise the first such event with the earliest
      commence time. */
  function PickNextUpcomingCavsGame(events: seq<OddsEvent>, now: Time): (r: Option<OddsEvent>)
    ensures r.None? <==> forall i :: 0 <= i < |events| ==> !(IsCavsGame(events[i]) && IsUpcoming(events[i], now))
    ensures r.Some? ==> IsCavsGame(r.value) && IsUpcoming(r.value, now)
    ensures r.Some? ==> exists i :: (0 <= i < |events| && events[i] == r.value
      && forall j :: 0 <= j < i && IsCavsGame(events[j]) && IsUpcoming(events[j], now) ==>
           events[j].commenceTime.value > r.value.commenceTime.value)
    ensures r.Some? ==> forall j :: 0 <= j < |events| && IsCavsGame(events[j]) && IsUpcoming(events[j], now) ==>
      r.value.commenceTime.value <= events[j].commenceTime.value
  {
    match Sequences.PickEarliest(events, IsNextCandidate(now), CommenceKey)
    case None => None
    case Some(k) => Some(events[k])
  }

  /** `bookmakers.find(b => b.key === 'fanduel') ?? bookmakers[0]`. */
  function PreferredBookmaker(bookmakers: seq<Bookmaker>): (r: Bookmaker)
    requires |bookmakers| > 0
    ensures r in bookmakers
    ensures (exists i :: 0 <= i < |bookmakers| && bookmakers[i].key == FanDuel) ==> r.key == FanDuel
    ensures (forall i :: 0 <= i < |bookmakers| ==> bookmakers[i].key != FanDuel) ==> r == bookmakers[0]
    ensures (exists i :: 0 <= i < |bookmakers| && bookmakers[i].key == FanDuel) ==>
      exists i :: (0 <= i < |bookmakers| && bookmakers[i] == r
        && forall j :: 0 <= j < i ==> bookmakers[j].key != FanDuel)
  {
    match Sequences.FindFirst(bookmakers, (b: Bookmaker) => b.key == FanDuel)
    case Some(i) => bookmakers[i]
    case None => bookmakers[0]
  }

  /** `(bookmaker.markets ?? []).find(m => m.key === 'spreads')`. */
  function SpreadsMarketOf(b: Bookmaker): (r: Option<Market>)
    ensures r.Some? ==> r.value.key == SpreadsKey && r.value in b.markets.GetOr([])
    ensures r.None? <==> forall m :: m in b.markets.GetOr([]) ==> m.key != SpreadsKey
    ensures r.Some? ==> exists i :: (0 <= i < |b.markets.GetOr([])| && b.markets.GetOr([])[i] == r.value
      && forall j :: 0 <= j < i ==> b.markets.GetOr([])[j].key != SpreadsKey)
  {
    var markets := b.markets.GetOr([]);
    match Sequences.FindFirst(markets, (m: Market) => m.key == SpreadsKey)
    case Some(i) => Some(markets[i])
    case None => None
  }

  /** The outcome `mapOddsApiToGame` reads the spread from: the first whose
      lower-cased name contains "cavaliers". */
  predicate NamesCavaliers(o: PriceOutcome) {
    Contains(ToLower(OrEmpty(o.name)), CavsTeamName)
  }

  function CavsOutcomeOf(m: Market): (r: Option<PriceOutcome>)
    ensures r.Some? ==> NamesCavaliers(r.value) && r.value in m.outcomes.GetOr([])
    ensures r.None? <==> forall o :: o in m.outcomes.GetOr([]) ==> !NamesCavaliers(o)
    ensures r.Some? ==> exists i :: (0 <= i < |m.outcomes.GetOr([])| && m.outcomes.GetOr([])[i] == r.value
      && forall j :: 0 <= j < i ==> !NamesCavaliers(m.outcomes.GetOr([])[j]))
  {
    var outcomes := m.outcomes.GetOr([]);
    match Sequences.FindFirst(outcomes, NamesCavaliers)
    case Some(i) => Some(outcomes[i])
    case None => None
  }

  /** The partial game record `mapOddsApiToGame` produces. */
  datatype MappedGame = MappedGame(
    gameId: string,
    homeTeam: Option<string>,
    awayTeam: Option<string>,
    startTime: Option<Time>,
    spread: Option<real>,
    bookmakerKey: string,
    status: GameStatus
  )

  /** `mapOddsApiToGame`: fails on no bookmakers, no spreads market at the chosen
      bookmaker, or no Cavaliers outcome in it; otherwise an upcoming game record
      whose spread is the Cavaliers outcome's point at the chosen bookmaker. */
  function MapOddsApiToGame(e: OddsEvent): (r: Result<MappedGame, HttpError>)
    ensures |e.bookmakers.GetOr([])| == 0 ==> r == Failure(InternalServerError(NoBookmakers))
    ensures |e.bookmakers.GetOr([])| > 0 && SpreadsMarketOf(PreferredBookmaker(e.bookmakers.value)).None? ==>
      r == Failure(InternalServerError(NoSpreadsMarket))
    ensures (|e.bookmakers.GetOr([])| > 0 && SpreadsMarketOf(PreferredBookmaker(e.bookmakers.value)).Some?
      && CavsOutcomeOf(SpreadsMarketOf(PreferredBookmaker(e.bookmakers.value)).value).None?) ==>
      r == Failure(InternalServerError(NoCavsOutcome))
    ensures r.Success? ==>
      var b := PreferredBookmaker(e.bookmakers.value);
      var m := SpreadsMarketOf(b);
      && m.Some? && CavsOutcomeOf(m.value).Some?
      && r.value.spread == CavsOutcomeOf(m.value).value.point
      && r.value.bookmakerKey == b.key
      && r.value.status == Upcoming
      && r.value.gameId == e.id && r.value.homeTeam == e.homeTeam && r.value.awayTeam == e.awayTeam
      && r.value.startTime == e.commenceTime
    ensures (|e.bookmakers.GetOr([])| > 0 && SpreadsMarketOf(PreferredBookmaker(e.bookmakers.value)).Some?
      && CavsOutcomeOf(SpreadsMarketOf(PreferredBookmaker(e.bookmakers.value)).value).Some?) ==> r.Success?
  {
    var bookmakers := e.bookmakers.GetOr([]);
    if |bookmakers| == 0 then Failure(InternalServerError(NoBookmakers))
    else
      var chosen := PreferredBookmaker(bookmakers);
      match SpreadsMarketOf(chosen)
      case None => Failure(InternalServerError(NoSpreadsMarket))
      case Some(market) =>
        match CavsOutcomeOf(market)
        case None => Failure(InternalServerError(NoCavsOutcome))
        case Some(outcome) =>
          Success(MappedGame(e.id, e.homeTeam, e.awayTeam, e.commenceTime, outcome.point, chosen.key, Upcoming))
  }

  /** `fetchAndUpsertNextCavsGame` between the fetch and the upsert: the record
      it would upsert is always a strictly future Cavaliers game. */
  function NextGameForUpsert(events: seq<OddsEvent>, now: Time): (r: Result<MappedGame, HttpError>)
    ensures (forall i :: 0 <= i < |events| ==> !IsNextCandidate(now)(events[i])) ==>
      r == Failure(InternalServerError(NoUpcomingCavsGame))
    ensures r.Success? ==>
      && r.value.status == Upcoming
      && r.value.startTime.Some? && r.value.startTime.value > now
      && (Contains(ToLower(OrEmpty(r.value.homeTeam)), CavsTeamName)
          || Contains(ToLower(OrEmpty(r.value.awayTeam)), CavsTeamName))
      && exists i :: 0 <= i < |events| && events[i].id == r.value.gameId
    ensures PickNextUpcomingCavsGame(events, now).Some? ==>
      (r.Success? <==> MapOddsApiToGame(PickNextUpcomingCavsGame(events, now).value).Success?)
    ensures r.Success? ==>
      && PickNextUpcomingCavsGame(events, now).Some?
      && r.value.gameId == PickNextUpcomingCavsGame(events, now).value.id
      && forall j :: 0 <= j < |events| && IsNextCandidate(now)(events[j]) ==>
           r.value.startTime.value <= events[j].commenceTime.value
    ensures PickNextUpcomingCavsGame(events, now).Some? ==>
      r == MapOddsApiToGame(PickNextUpcomingCavsGame(events, now).value)
  {
    match PickNextUpcomingCavsGame(events, now)
    case None => Failure(InternalServerError(NoUpcomingCavsGame))
    case Some(e) => MapOddsApiToGame(e)
  }

  /** The value `fetchNextCavsGameFromOddsApi` resolves to. */
  datatype NextCavsGameFromApi = NextCavsGameFromApi(
    externalGameId: string,
    homeTeam: Option<string>,
    awayTeam: Option<string>,
    startTime: Time,
    spread: real,
    bookmakerKey: string
  )

  /** The dev-seed path's team test: exact equality with the focus team name. */
  predicate IsFocusGame(e: OddsEvent, focus: string) {
    e.homeTeam == Some(focus) || e.awayTeam == Some(focus)
  }

  /** The dev-seed path's time test: a valid date at or after `now`. */
  predicate StartsNowOrLater(e: OddsEvent, now: Time) {
    e.commenceTime.Some? && e.commenceTime.value >= now
  }

  function IsSeedCandidate(now: Time, focus: string): OddsEvent -> bool {
    (e: OddsEvent) => IsFocusGame(e, focus) && StartsNowOrLater(e, now)
  }

  /** `(event.bookmakers ?? []).find(b => b.key === 'fanduel')`, with no fallback. */
  function FanDuelOf(e: OddsEvent): (r: Option<Bookmaker>)
    ensures r.Some? ==> r.value.key == FanDuel && r.value in e.bookmakers.GetOr([])
    ensures r.None? <==> forall b :: b in e.bookmakers.GetOr([]) ==> b.key != FanDuel
    ensures r.Some? ==> exists i :: (0 <= i < |e.bookmakers.GetOr([])| && e.bookmakers.GetOr([])[i] == r.value
      && forall j :: 0 <= j < i ==> e.bookmakers.GetOr([])[j].key != FanDuel)
  {
    var bookmakers := e.bookmakers.GetOr([]);
    match Sequences.FindFirst(bookmakers, (b: Bookmaker) => b.key == FanDuel)
    case Some(i) => Some(bookmakers[i])
    case None => None
  }

  /** `outcomes.find(o => o.name === focus)`. */
  function FocusOutcomeOf(m: Market, focus: string): (r: Option<PriceOutcome>)
    ensures r.Some? ==> r.value.name == Some(focus) && r.value in m.outcomes.GetOr([])
    ensures r.None? <==> forall o :: o in m.outcomes.GetOr([]) ==> o.name != Some(focus)
    ensures r.Some? ==> exists i :: (0 <= i < |m.outcomes.GetOr([])| && m.outcomes.GetOr([])[i] == r.value
      && forall j :: 0 <= j < i ==> m.outcomes.GetOr([])[j].name != Some(focus))
  {
    var outcomes := m.outcomes.GetOr([]);
    match Sequences.FindFirst(outcomes, (o: PriceOutcome) => o.name == Some(focus))
    case Some(i) => Some(outcomes[i])
    case None => None
  }

  /** The post-fetch part of `fetchNextCavsGameFromOddsApi`: the earliest exact-match
      event at or after `now`, and only that event, is read; `null` when there is
      none, when it has no FanDuel bookmaker, no spreads market there, or its
      first focus-team outcome has no numeric point. */
  function NextCavsGameFromOdds(data: seq<OddsEvent>, now: Time, focus: string): (r: Option<NextCavsGameFromApi>)
    ensures (forall i :: 0 <= i < |data| ==> !IsSeedCandidate(now, focus)(data[i])) ==> r.None?
    ensures r.Some? ==>
      var k := Sequences.PickEarliest(data, IsSeedCandidate(now, focus), CommenceKey);
      && k.Some?
      && var e := data[k.value];
      && r.value.externalGameId == e.id && r.value.homeTeam == e.homeTeam && r.value.awayTeam == e.awayTeam
      && r.value.startTime == e.commenceTime.value && r.value.startTime >= now
      && (forall j :: 0 <= j < |data| && IsSeedCandidate(now, focus)(data[j]) ==>
            r.value.startTime <= data[j].commenceTime.value)
      && r.value.bookmakerKey == FanDuel
      && FanDuelOf(e).Some? && SpreadsMarketOf(FanDuelOf(e).value).Some?
      && FocusOutcomeOf(SpreadsMarketOf(FanDuelOf(e).value).value, focus).Some?
      && Some(r.value.spread) == FocusOutcomeOf(SpreadsMarketOf(FanDuelOf(e).value).value, focus).value.point
    ensures
      var k := Sequences.PickEarliest(data, IsSeedCandidate(now, focus), CommenceKey);
      (&& k.Some?
       && FanDuelOf(data[k.value]).Some?
       && SpreadsMarketOf(FanDuelOf(data[k.value]).value).Some?
       && FocusOutcomeOf(SpreadsMarketOf(FanDuelOf(data[k.value]).value).value, focus).Some?
       && FocusOutcomeOf(SpreadsMarketOf(FanDuelOf(data[k.value]).value).value, focus).value.point.Some?)
      ==> r.Some?
  {
    match Sequences.PickEarliest(data, IsSeedCandidate(now, focus), CommenceKey)
    case None => None
    case Some(k) =>
      var next := data[k];
      match FanDuelOf(next)
      case None => None
      case Some(fanduel) =>
        match SpreadsMarketOf(fanduel)
        case None => None
        case Some(market) =>
          match FocusOutcomeOf(market, focus)
          case None => None
          case Some(outcome) =>
            if outcome.point.None? then None
            else Some(NextCavsGameFromApi(next.id, next.homeTeam, next.awayTeam,
                                          next.commenceTime.value, outcome.point.value, FanDuel))
  }
}

=== FILE: points.dfy ===
/** The points ledger: one running total per user, changed only by an
    upsert-increment. A map keyed by user id holds at most one entry per user,
    as the schema's unique `userId` index demands. */
module Points {

  type Ledger = map<string, int>

  /** The stored document: a user id and its running total. */
  datatype PointsEntry = PointsEntry(userId: string, totalPoints: int)

  /** The schema default of `totalPoints`: what an upserted entry starts from. */
  const DefaultTotalPoints: int := 0

  /** `getPointsForUser`: the stored total, or 0 when the user has no entry. Never fails. */
  function PointsForUser(ledger: Ledger, userId: string): (total: int)
    ensures userId !in ledger ==> total == DefaultTotalPoints
    ensures userId in ledger ==> total == ledger[userId]
  {
    if userId in ledger then ledger[userId] else DefaultTotalPoints
  }

  /** `addPoints`: `findOneAndUpdate({ userId }, { $inc: { totalPoints: amount } },
      { new: true, upsert: true })`. Returns the new ledger and the updated entry. */
  function AddPoints(ledger: Ledger, userId: string, amount: int): (r: (Ledger, PointsEntry))
    ensures r.0.Keys == ledger.Keys + {userId}
    ensures r.1.userId == userId && r.0[userId] == r.1.totalPoints
    ensures userId !in ledger ==> r.1.totalPoints == amount
    ensures userId in ledger ==> r.1.totalPoints == ledger[userId] + amount
    ensures forall v :: v in ledger && v != userId ==> r.0[v] == ledger[v]
  {
    var base := if userId in ledger then ledger[userId] else DefaultTotalPoints;
    var entry := PointsEntry(userId, base + amount);
    (ledger[userId := entry.totalPoints], entry)
  }

  /** Reading after an increment gives the previous reading plus the amount. */
  lemma AddThenRead(ledger: Ledger, userId: string, amount: int)
    ensures PointsForUser(AddPoints(ledger, userId, amount).0, userId)
         == PointsForUser(ledger, userId) + amount
  {
  }

  /** An increment leaves every other user's reading unchanged. */
  lemma AddLeavesOthersAlone(ledger: Ledger, userId: string, amount: int, other: string)
    requires other != userId
    ensures PointsForUser(AddPoints(ledger, userId, amount).0, other) == PointsForUser(ledger, other)
  {
  }

  /** A sequence of `addPoints` calls, applied in order. */
  function ApplyAwards(ledger: Ledger, awards: seq<(string, int)>): Ledger
    decreases |awards|
  {
    if |awards| == 0 then ledger
    else ApplyAwards(AddPoints(ledger, awards[0].0, awards[0].1).0, awards[1..])
  }

  /** The sum of the amounts in `awards` addressed to `userId`. */
  function AwardedTo(awards: seq<(string, int)>, userId: string): int
    decreases |awards|
  {
    if |awards| == 0 then 0
    else (if awards[0].0 == userId then awards[0].1 else 0) + AwardedTo(awards[1..], userId)
  }

  /** Increments accumulate: after any sequence of calls a user's reading is the
      starting reading plus everything addressed to that user, whatever the order
      or interleaving with other users' calls. */
  lemma {:induction false} ReadAfterAwards(ledger: Ledger, awards: seq<(string, int)>, userId: string)
    ensures PointsForUser(ApplyAwards(ledger, awards), userId)
         == PointsForUser(ledger, userId) + AwardedTo(awards, userId)
    decreases |awards|
  {
    if |awards| > 0 {
      var next := AddPoints(ledger, awards[0].0, awards[0].1).0;
      ReadAfterAwards(next, awards[1..], userId);
      if awards[0].0 == userId {
        AddThenRead(ledger, userId, awards[0].1);
      } else {
        AddLeavesOthersAlone(ledger, awards[0].0, awards[0].1, userId);
      }
    }
  }

  /** With non-negative amounts no reading ever decreases. */
  lemma NonNegativeAwardsNeverDecrease(ledger: Ledger, awards: seq<(string, int)>, userId: string)
    requires forall k :: 0 <= k < |awards| ==> awards[k].1 >= 0
    ensures PointsForUser(ApplyAwards(ledger, awards), userId) >= PointsForUser(ledger, userId)
  {
    ReadAfterAwards(ledger, awards, userId);
    AwardedToNonNegative(awards, userId);
  }

  lemma {:induction false} AwardedToNonNegative(awards: seq<(string, int)>, userId: string)
    requires forall k :: 0 <= k < |awards| ==> awards[k].1 >= 0
    ensures AwardedTo(awards, userId) >= 0
    decreases |awards|
  {
    if |awards| > 0 {
      AwardedToNonNegative(awards[1..], userId);
    }
  }
}

=== FILE: scenarios.dfy ===
/** End-to-end runs of the model on concrete data: the ingest, place, settle
    flow of the backend's end-to-end test, and a settlement where the stored
    Cavaliers spread is applied to the wrong team. */
module Scenarios {
  import opened Wrappers
  import opened GameSchema
  import opened BetSchema
  import opened Bets
  import opened Odds
  import GamesProperties
  import Sequences

  /** The record an upsert inserts for a mapped game when no record has its id yet. */
  function InsertedGame(m: MappedGame, oid: ObjectId): Game {
    Game(oid, m.gameId, m.homeTeam, m.awayTeam, m.startTime, m.spread, None, None, m.bookmakerKey,
         m.status, None, None, None, None)
  }

  /** The single event the end-to-end test's odds response carries. */
  function TestEvent(start: Time): OddsEvent {
    OddsEvent("game-1", Some("Cleveland Cavaliers"), Some("Boston Celtics"), Some(start),
      Some([Bookmaker("fanduel", Some([Market("spreads", Some([
        PriceOutcome(Some("Cleveland Cavaliers"), Some(-5.5)),
        PriceOutcome(Some("Boston Celtics"), Some(5.5))]))]))]))
  }

  /** Ingest, place a home bet of 10, settle: the ingested game carries the
      Cavaliers' -5.5, the bet is pending with that line, and settlement with no
      debug scores plays 110-102, so the home bet is won. */
  lemma IngestPlaceSettle(now: Time, start: Time, later: Time)
    requires start > now
    ensures var mapped := NextGameForUpsert([TestEvent(start)], now);
      && mapped.Success?
      && mapped.value.gameId == "game-1" && mapped.value.spread == Some(-5.5) && mapped.value.bookmakerKey == "fanduel"
      && var store := Store([InsertedGame(mapped.value, 1)], []);
      && var placed := CreateBet(store, "user1", CreateBetDto("game-1", "home", Finite(10.0)));
      && placed.Success? && placed.value.bet.status == Pending && placed.value.bet.line == -5.5
      && var settled := SettleGame(placed.value.store, "game-1", later);
      && settled.Success?
      && settled.value.game.finalHomeScore == Some(110.0) && settled.value.game.finalAwayScore == Some(102.0)
      && |settled.value.updatedBets| == 1 && settled.value.updatedBets[0].status == Won
  {
    var e := TestEvent(start);
    assert IsNextCandidate(now)(e) by {
      GamesProperties.FocusMatchImpliesCavsMatch(e);
    }
    var b := e.bookmakers.value;
    assert PreferredBookmaker(b) == b[0];
    var m := b[0].markets.value[0];
    assert SpreadsMarketOf(b[0]) == Some(m);
    assert NamesCavaliers(m.outcomes.value[0]) by {
      GamesProperties.DefaultFocusNamesCavaliers();
    }
    assert CavsOutcomeOf(m) == Some(m.outcomes.value[0]);
    var mapped := NextGameForUpsert([e], now);
    var store := Store([InsertedGame(mapped.value, 1)], []);
    assert FindGame(store.games, "game-1") == Some(0);
    var placed := CreateBet(store, "user1", CreateBetDto("game-1", "home", Finite(10.0)));
    assert FindGame(placed.value.store.games, "game-1") == Some(0);
    assert Sequences.Filter(placed.value.store.bets, PendingOn(1)) == [placed.value.bet];
  }

  /** The stored spread is the Cavaliers' point, but settlement always adds it
      to the home score. With the Cavaliers away and favoured by 5.5, a home
      team losing 100-102 has covered its +5.5, yet a home bet is settled lost. */
  lemma AwayFavouriteSpreadAppliedToHome(now: Time)
    ensures var game := Game(7, "away-fav", Some("Boston Celtics"), Some("Cleveland Cavaliers"), None, Some(-5.5),
                             None, None, "fanduel", Upcoming, None, None, Some(100.0), Some(102.0));
      var bet := Bet("user1", 7, 10.0, Home, -5.5, PlacementOdds, Pending, None);
      var settled := SettleGame(Store([game], [bet]), "away-fav", now);
      && settled.Success?
      && settled.value.store.bets[0].status == Lost
      && 100.0 + 5.5 > 102.0
  {
  }
}

=== FILE: schedule.dfy ===
/** The schedule-only view of the next game: events from the ESPN team
    schedule normalised to a small record, with a static schedule as the
    fallback when the ESPN request fails. */
module Schedule {
  import opened Wrappers
  import opened GameSchema
  import Sequences

  /** The record both pickers return. `startTime` is the instant the returned
      ISO-8601 string denotes. */
  datatype ScheduleView = ScheduleView(homeTeam: string, awayTeam: string, startTime: Time, status: GameStatus)

  /** One entry of the static schedule; `startTime` is absent when its ISO text does not parse. */
  datatype StaticScheduleGame = StaticScheduleGame(homeTeam: string, awayTeam: string, startTime: Option<Time>)

  /** The three static tip-offs: 2030-01-01T00:30Z, 2029-12-15T23:00Z and 2029-11-20T23:30Z. */
  const StaticCavsSchedule: seq<StaticScheduleGame> := [
    StaticScheduleGame("Cleveland Cavaliers", "Boston Celtics", Some(1893457800000)),
    StaticScheduleGame("Miami Heat", "Cleveland Cavaliers", Some(1892070000000)),
    StaticScheduleGame("Cleveland Cavaliers", "Chicago Bulls", Some(1889911800000))
  ]

  /** The fallback's filter: a valid start strictly after `now`. */
  function IsFutureEntry(now: Time): StaticScheduleGame -> bool {
    (g: StaticScheduleGame) => g.startTime.Some? && g.startTime.value > now
  }

  function EntryKey(g: StaticScheduleGame): int {
    g.startTime.GetOr(0)
  }

  /** `pickFallbackSchedule`: the earliest strictly-future entry, as an upcoming
      view, or `null` when every entry is invalid or not in the future. */
  function PickFallbackSchedule(schedule: seq<StaticScheduleGame>, now: Time): (r: Option<ScheduleView>)
    ensures r.None? <==> forall i :: 0 <= i < |schedule| ==> !IsFutureEntry(now)(schedule[i])
    ensures r.Some? ==> r.value.status == Upcoming && r.value.startTime > now
    ensures r.Some? ==> exists i :: (0 <= i < |schedule| && schedule[i].startTime == Some(r.value.startTime)
      && schedule[i].homeTeam == r.value.homeTeam && schedule[i].awayTeam == r.value.awayTeam
      && forall j :: 0 <= j < i && IsFutureEntry(now)(schedule[j]) ==> schedule[j].startTime.value > r.value.startTime)
    ensures r.Some? ==> forall j :: 0 <= j < |schedule| && IsFutureEntry(now)(schedule[j]) ==>
      r.value.startTime <= schedule[j].startTime.value
  {
    match Sequences.PickEarliest(schedule, IsFutureEntry(now), EntryKey)
    case None => None
    case Some(k) =>
      var g := schedule[k];
      Some(ScheduleView(g.homeTeam, g.awayTeam, g.startTime.value, Upcoming))
  }

  datatype EspnTeam = EspnTeam(displayName: Option<string>, name: Option<string>)

  datatype Competitor = Competitor(homeAway: Option<string>, team: Option<EspnTeam>)

  datatype Competition = Competition(competitors: Option<seq<Competitor>>)

  /** One ESPN schedule event; `date` is absent when missing, empty or unparseable. */
  datatype EspnEvent = EspnEvent(date: Option<Time>, competitions: Option<seq<Competition>>)

  const UnknownHome := "Unknown Home"
  const UnknownAway := "Unknown Away"

  /** `event.competitions?.[0]?.competitors ?? []`. */
  function CompetitorsOf(e: EspnEvent): seq<Competitor> {
    var competitions := e.competitions.GetOr([]);
    if |competitions| == 0 then [] else competitions[0].competitors.GetOr([])
  }

  /** `competitors.find(c => c.homeAway === tag) ?? competitors[position]`. */
  function SideCompetitor(cs: seq<Competitor>, tag: string, position: nat): (r: Option<Competitor>)
    ensures (exists i :: 0 <= i < |cs| && cs[i].homeAway == Some(tag)) ==>
      r.Some? && r.value.homeAway == Some(tag) && r.value in cs
    ensures (forall i :: 0 <= i < |cs| ==> cs[i].homeAway != Some(tag)) ==>
      (if position < |cs| then r == Some(cs[position]) else r.None?)
    ensures (exists i :: 0 <= i < |cs| && cs[i].homeAway == Some(tag)) ==>
      exists i :: (0 <= i < |cs| && Some(cs[i]) == r
        && forall j :: 0 <= j < i ==> cs[j].homeAway != Some(tag))
  {
    match Sequences.FindFirst(cs, (c: Competitor) => c.homeAway == Some(tag))
    case Some(i) => Some(cs[i])
    case None => if position < |cs| then Some(cs[position]) else None
  }

  /** `team?.displayName ?? team?.name ?? unknown`. */
  function TeamName(c: Competitor, unknown: string): (r: string)
    ensures c.team.None? ==> r == unknown
    ensures c.team.Some? && c.team.value.displayName.Some? ==> r == c.team.value.displayName.value
    ensures c.team.Some? && c.team.value.displayName.None? && c.team.value.name.Some? ==> r == c.team.value.name.value
    ensures c.team.Some? && c.team.value.displayName.None? && c.team.value.name.None? ==> r == unknown
  {
    match c.team
    case None => unknown
    case Some(t) => t.displayName.GetOr(t.name.GetOr(unknown))
  }

  /** The per-event normalisation inside `getNextScheduledGameFromESPN`: events
      without a date, dated before `now`, or without a home or away competitor are
      dropped; the rest become upcoming views. */
  function NormalizeEspnEvent(e: EspnEvent, now: Time): (r: Option<ScheduleView>)
    ensures r.Some? <==>
      && e.date.Some? && e.date.value >= now
      && SideCompetitor(CompetitorsOf(e), "home", 0).Some?
      && SideCompetitor(CompetitorsOf(e), "away", 1).Some?
    ensures r.Some? ==> r.value.startTime == e.date.value && r.value.status == Upcoming
    ensures r.Some? ==>
      && r.value.homeTeam == TeamName(SideCompetitor(CompetitorsOf(e), "home", 0).value, UnknownHome)
      && r.value.awayTeam == TeamName(SideCompetitor(CompetitorsOf(e), "away", 1).value, UnknownAway)
  {
    if e.date.None? || e.date.value < now then None
    else
      var cs := CompetitorsOf(e);
      match (SideCompetitor(cs, "home", 0), SideCompetitor(cs, "away", 1))
      case (Some(home), Some(away)) =>
        Some(ScheduleView(TeamName(home, UnknownHome), TeamName(away, UnknownAway), e.date.value, Upcoming))
      case _ => None
  }

  function IsNormalized(now: Time): EspnEvent -> bool {
    (e: EspnEvent) => NormalizeEspnEvent(e, now).Some?
  }

  function NormalizedKey(now: Time): EspnEvent -> int {
    (e: EspnEvent) => match NormalizeEspnEvent(e, now) case Some(v) => v.startTime case None => 0
  }

  /** `getNextScheduledGameFromESPN` after the response arrives: the earliest
      normalised event, or `null` when none survives normalisation. */
  function NextScheduledGameFromEspn(events: seq<EspnEvent>, now: Time): (r: Option<ScheduleView>)
    ensures r.None? <==> forall i :: 0 <= i < |events| ==> NormalizeEspnEvent(events[i], now).None?
    ensures r.Some? ==> r.value.status == Upcoming && r.value.startTime >= now
    ensures r.Some? ==> exists i :: (0 <= i < |events| && NormalizeEspnEvent(events[i], now) == r
      && forall j :: 0 <= j < i && NormalizeEspnEvent(events[j], now).Some? ==>
           NormalizeEspnEvent(events[j], now).value.startTime > r.value.startTime)
    ensures r.Some? ==> forall j :: 0 <= j < |events| && NormalizeEspnEvent(events[j], now).Some? ==>
      r.value.startTime <= NormalizeEspnEvent(events[j], now).value.startTime
  {
    match Sequences.PickEarliest(events, IsNormalized(now), NormalizedKey(now))
    case None => None
    case Some(k) => NormalizeEspnEvent(events[k], now)
  }

  /** `getNextScheduleOnly`: the ESPN answer when the request succeeded (`espn` is
      the response's event list), the static fallback only when it failed. */
  function NextScheduleOnly(espn: Option<seq<EspnEvent>>, schedule: seq<StaticScheduleGame>, now: Time)
    : (r: Option<ScheduleView>)
    ensures r.Some? ==> r.value.status == Upcoming && r.value.startTime >= now
    ensures espn.Some? && r.Some? ==> exists i :: (0 <= i < |espn.value| && NormalizeEspnEvent(espn.value[i], now) == r
      && forall j :: 0 <= j < i && NormalizeEspnEvent(espn.value[j], now).Some? ==>
           NormalizeEspnEvent(espn.value[j], now).value.startTime > r.value.startTime)
    ensures espn.None? && r.Some? ==> exists i :: (0 <= i < |schedule| && schedule[i].startTime == Some(r.value.startTime)
      && schedule[i].homeTeam == r.value.homeTeam && schedule[i].awayTeam == r.value.awayTeam
      && forall j :: 0 <= j < i && IsFutureEntry(now)(schedule[j]) ==> schedule[j].startTime.value > r.value.startTime)
    ensures espn.Some? ==>
      (r.None? <==> forall i :: 0 <= i < |espn.value| ==> NormalizeEspnEvent(espn.value[i], now).None?)
    ensures espn.None? ==>
      (r.None? <==> forall i :: 0 <= i < |schedule| ==> !IsFutureEntry(now)(schedule[i]))
    ensures espn.Some? && r.Some? ==> forall j :: 0 <= j < |espn.value| && NormalizeEspnEvent(espn.value[j], now).Some? ==>
      r.value.startTime <= NormalizeEspnEvent(espn.value[j], now).value.startTime
    ensures espn.None? && r.Some? ==> forall j :: 0 <= j < |schedule| && IsFutureEntry(now)(schedule[j]) ==>
      r.value.startTime <= schedule[j].startTime.value
  {
    match espn
    case Some(events) => NextScheduledGameFromEspn(events, now)
    case None => PickFallbackSchedule(schedule, now)
  }
}

=== FILE: sequences.dfy ===
/** Generic searches over sequences. The source leans on three array idioms:
    `find` (first element passing a test), `filter`, and "filter, stable sort by
    a numeric key, take element 0". Each is defined once here. */
module Sequences {
  import opened Wrappers

  /** `xs.find(p)`, as an index: the first position whose element passes `p`. */
  function FindFirst<T>(xs: seq<T>, p: T -> bool): (r: Option<nat>)
    ensures r.None? <==> forall i :: 0 <= i < |xs| ==> !p(xs[i])
    ensures r.Some? ==> r.value < |xs| && p(xs[r.value])
    ensures r.Some? ==> forall j :: 0 <= j < r.value ==> !p(xs[j])
    decreases |xs|
  {
    if |xs| == 0 then None
    else if p(xs[0]) then Some(0)
    else
      match FindFirst(xs[1..], p)
      case None => None
      case Some(k) => Some(k + 1)
  }

  /** `xs.filter(p)`: the passing elements, in their original order. */
  function Filter<T>(xs: seq<T>, p: T -> bool): (r: seq<T>)
    ensures |r| <= |xs|
    ensures forall i :: 0 <= i < |r| ==> p(r[i])
    decreases |xs|
  {
    if |xs| == 0 then []
    else if p(xs[0]) then [xs[0]] + Filter(xs[1..], p)
    else Filter(xs[1..], p)
  }

  /** `Filter` keeps exactly the passing elements: nothing is invented, nothing passing is dropped. */
  lemma {:induction false} FilterKeepsExactlyThePassing<T>(xs: seq<T>, p: T -> bool)
    ensures forall i :: 0 <= i < |Filter(xs, p)| ==> Filter(xs, p)[i] in xs
    ensures forall i :: 0 <= i < |xs| && p(xs[i]) ==> xs[i] in Filter(xs, p)
    decreases |xs|
  {
    if |xs| > 0 {
      FilterKeepsExactlyThePassing(xs[1..], p);
      assert forall i :: 1 <= i < |xs| ==> xs[i] == xs[1..][i - 1];
    }
  }

  /** `Filter` counted per element: each passing element keeps all of its
      occurrences, each failing element has none left. */
  lemma {:induction false} FilterCounts<T>(xs: seq<T>, p: T -> bool)
    ensures forall x :: multiset(Filter(xs, p))[x] == if p(x) then multiset(xs)[x] else 0
    decreases |xs|
  {
    if |xs| > 0 {
      FilterCounts(xs[1..], p);
      assert xs == [xs[0]] + xs[1..];
    }
  }

  /** The element order of a sequence, reversed. */
  function Reverse<T>(xs: seq<T>): (r: seq<T>)
    ensures |r| == |xs|
    ensures forall i :: 0 <= i < |xs| ==> r[i] == xs[|xs| - 1 - i]
    ensures multiset(r) == multiset(xs)
    decreases |xs|
  {
    if |xs| == 0 then [] else
      assert xs == [xs[0]] + xs[1..];
      Reverse(xs[1..]) + [xs[0]]
  }

  /** Two tests that agree on every element of `xs` pick the same index. */
  lemma {:induction false} PickEarliestAgrees<T>(xs: seq<T>, p: T -> bool, q: T -> bool, key: T -> int)
    requires forall i :: 0 <= i < |xs| ==> p(xs[i]) == q(xs[i])
    ensures PickEarliest(xs, p, key) == PickEarliest(xs, q, key)
    decreases |xs|
  {
    if |xs| > 0 {
      assert forall i :: 0 <= i < |xs| - 1 ==> xs[1..][i] == xs[i + 1];
      PickEarliestAgrees(xs[1..], p, q, key);
    }
  }

  /** `xs.filter(p).sort((a, b) => key(a) - key(b))[0]`, as an index into `xs`.
      JavaScript's sort is stable, so the chosen element is the FIRST passing one
      whose key is minimal. `key` is only consulted on passing elements. */
  function PickEarliest<T>(xs: seq<T>, p: T -> bool, key: T -> int): (r: Option<nat>)
    ensures r.None? <==> forall i :: 0 <= i < |xs| ==> !p(xs[i])
    ensures r.Some? ==> r.value < |xs| && p(xs[r.value])
    ensures r.Some? ==> forall j :: 0 <= j < |xs| && p(xs[j]) ==> key(xs[r.value]) <= key(xs[j])
    ensures r.Some? ==> forall j :: 0 <= j < r.value && p(xs[j]) ==> key(xs[r.value]) < key(xs[j])
    decreases |xs|
  {
    if |xs| == 0 then None
    else
      var rest := PickEarliest(xs[1..], p, key);
      if !p(xs[0]) then
        (match rest case None => None case Some(k) => Some(k + 1))
      else if rest.Some? && key(xs[1..][rest.value]) < key(xs[0]) then
        Some(rest.value + 1)
      else
        Some(0)
  }
}

=== FILE: text.dfy ===
/** The two string operations the team matching uses: `toLowerCase` and
    `includes`. Case mapping covers the ASCII letters only. */
module Text {

  function LowerChar(c: char): char {
    if 'A' <= c <= 'Z' then (c as int - 'A' as int + 'a' as int) as char else c
  }

  /** `s.toLowerCase()` restricted to ASCII. */
  function ToLower(s: string): (r: string)
    ensures |r| == |s|
    ensures forall i :: 0 <= i < |s| ==> r[i] == LowerChar(s[i])
    ensures forall i :: 0 <= i < |r| ==> !('A' <= r[i] <= 'Z')
  {
    seq(|s|, i requires 0 <= i < |s| => LowerChar(s[i]))
  }

  /** `sub` occurs in `s` starting at position `i`. */
  predicate OccursAt(s: string, sub: string, i: int) {
    0 <= i && i + |sub| <= |s| && s[i..i + |sub|] == sub
  }

  /** `s.includes(sub)`. */
  predicate Contains(s: string, sub: string) {
    exists i | 0 <= i <= |s| :: OccursAt(s, sub, i)
  }

  /** The naive left-to-right scan `includes` is specified by: try `sub` at
      the current start, then drop one character and try again. */
  predicate ScanIncludes(s: string, sub: string)
    decreases |s|
  {
    (|sub| <= |s| && s[..|sub|] == sub) || (|s| > 0 && ScanIncludes(s[1..], sub))
  }

  /** The occurrence-based `Contains` and the scan agree on every input. */
  lemma {:induction false} ContainsIffScan(s: string, sub: string)
    ensures Contains(s, sub) <==> ScanIncludes(s, sub)
    decreases |s|
  {
    if |s| > 0 {
      ContainsIffScan(s[1..], sub);
      if Contains(s, sub) {
        var i :| 0 <= i <= |s| && OccursAt(s, sub, i);
        if i > 0 {
          assert s[1..][i - 1..i - 1 + |sub|] == s[i..i + |sub|];
          assert OccursAt(s[1..], sub, i - 1);
        }
      }
      if ScanIncludes(s[1..], sub) {
        var i :| 0 <= i <= |s| - 1 && OccursAt(s[1..], sub, i);
        assert s[i + 1..i + 1 + |sub|] == s[1..][i..i + |sub|];
        assert OccursAt(s, sub, i + 1);
      }
      if |sub| <= |s| && s[..|sub|] == sub {
        assert OccursAt(s, sub, 0);
      }
    } else {
      if Contains(s, sub) {
        var i :| 0 <= i <= |s| && OccursAt(s, sub, i);
        assert s[..|sub|] == sub;
      }
      if |sub| == 0 {
        assert OccursAt(s, sub, 0);
      }
    }
  }

  /** Lower-casing commutes with taking a window. */
  lemma ToLowerWindow(s: string, i: nat, j: nat)
    requires i <= j <= |s|
    ensures ToLower(s)[i..j] == ToLower(s[i..j])
  {
  }
}

=== FILE: wrappers.dfy ===
/** Failure-carrying datatypes shared by the whole model: `Option` stands for a
    JavaScript value that may be `null`/`undefined`, `Result` for an operation
    that either returns a value or throws. */
module Wrappers {

  datatype Option<+T> = None | Some(value: T) {

    /** The `??` operator: the value when present, otherwise `default`. */
    function GetOr(default: T): T {
      match this
      case Some(v) => v
      case None => default
    }
  }

  datatype Result<+R, +E> = Success(value: R) | Failure(error: E)
}
